=== FILE: README.md ===
# mathool-client: result history, error alerts and input validation

A Dafny model of the logic inside the React handlers of the mathool client,
a web form that sends a non-negative integer to a remote math service and
shows whether it is prime and/or its factorial, keeping a history of past
results in browser local storage.

Five modules, following the program's structure:

- `MathTypes` (`math_types.dfy`): the result record — a `number` with an
  independently optional `prime` and `factorial` — and `Option`.
- `Text` (`text.dfy`): `Array.prototype.join`, `Object.values` on a string,
  and the decimal text a template literal gives an
  integer below 1e21 in magnitude; plus a split on line breaks, which the
  client never performs but which states how an alert reads line by line.
- `ErrorFormat` (`error_format.dfy`): the error payload of a non-ok response
  and the two message formatters: the four-way precedence of the submit
  handler and the plain `Object.values(message).join("\n")` of the two fill
  handlers.
- `App` (`app.dfy`): the state `(history, current, store)` and its
  transitions — hydrate at start-up, submit (append), fill factorial, fill
  prime, clear — plus runs of user actions and reloads.
- `Form` (`form.dfy`): the text field, inline error and selected mode; the
  three ordered validation checks; the mode menu.

The network is an input: each handler receives the already-awaited response
as `Ok(record)`, `Rejected(payload)` or `Fault` (the request rejected or the
body was not JSON; the handler's `catch` swallows it). Local storage is a
`map<string, seq<ResultRecord>>` with JSON serialisation taken as the
identity. `Number(text)` is an input too, abstracted as `NaN`, an infinity,
or `Num(value: real)`; "integer" means `value.Floor as real == value`.

The model follows the code as written; in particular:

- The fill handlers do not use the submit handler's precedence. A string
  `message` is split into one character per line, and a missing or `null`
  `message` makes `Object.values` throw, so no alert appears
  (`ErrorFormat.FillSplitsTextMessage`, `ErrorFormat.ErrorFieldOnlyOnSubmitPath`).
- On the submit path `typeof null === "object"`, so a `null` message also
  throws inside the formatter, and no alert appears.
- An out-of-range fill index is not an error. The `map` leaves the history
  unchanged, but the handler still writes it to the store. So with an empty
  history the key can be present and hold `[]`. `App.Agrees` accepts that:
  the key's value equals the history when the key is present, and the
  history is empty when the key is absent.
- The fill handlers never update the current result, even when the filled
  entry is the one being shown.

## Model

| member | source | states |
|---|---|---|
| App.Hydrate | src/App.tsx:18-23 | a stored list becomes the history; without the key the history stays as it was; the current result and the store are not touched |
| App.HydrateAgrees | src/App.tsx:18-23 | start-up hydration from any store yields a history that agrees with the store |
| App.AgreesIffReloadRestores | src/App.tsx:18-23 | the store agrees with the history exactly when a fresh start hydrated from that store shows the same history (both directions) |
| App.Append | src/App.tsx:54-61 | a successful submit grows the history by one, keeps every earlier entry, puts the record last, shows it as current, stores the new history and keeps every other store key |
| App.HandleSubmit | src/App.tsx:31-65 | an ok response appends with no alert; a non-ok response or a fault leaves history, current and store unchanged; a non-ok alert reads `Error {statusCode} - {statusMessage}:\n{text}` with the submit-path text, and no alert appears when that text throws |
| App.SubmitsAppendInOrder | src/App.tsx:54-61 | submitting k records appends them in submission order, the stored copy reads back as the same sequence, and the last one is current |
| App.MapAt | src/App.tsx:92-94 | the index-guarded `map` keeps the length, keeps every other entry, and applies the update to the entry at the index |
| App.MapAtIsUpdate | src/App.tsx:127-129 | the index-guarded `map` equals a one-position sequence update, or the unchanged sequence when the index names no entry |
| App.FillFactorial | src/App.tsx:71-101 | on an ok response only `factorial` of entry i changes (to the response's value): `number` and `prime` are kept, other entries and the length are kept, an out-of-range index leaves the history unchanged (the key is still rewritten), and the current result is kept; the key is then present and agrees with the history; a non-ok response changes nothing and alerts with the fill-path text |
| App.FillPrime | src/App.tsx:107-137 | the same for `prime` of entry i, with `number` and `factorial` kept; an out-of-range index leaves the history unchanged, and on an ok response the key is present and agrees with the history |
| App.FillOrderIrrelevant | src/App.tsx:92-129 | filling prime then factorial of one entry gives the same state as the other order |
| App.Clear | src/App.tsx:140-144 | clearing removes the "Results" key (instead of storing an empty list), empties the history, sets the current result to none and keeps every other key |
| App.ClearThenHydrateIsEmpty | src/App.tsx:140-142 | a reload after clearing shows an empty history |
| App.ApplyKeepsAgrees | src/App.tsx:57-142 | each handler, on any response, leaves the store agreeing with the history when it agreed before |
| App.RunKeepsAgrees | src/App.tsx:31-144 | any sequence of submits, fills and clears keeps the store agreeing with the history |
| App.SessionSurvivesReload | src/App.tsx:18-144 | after start-up and any sequence of actions, a reload restores exactly the history shown |
| App.FactorialFillTargetIsModeTarget | src/App.tsx:73-76 | the factorial fill requests the endpoint of the "Calculate Factorial" mode, whatever mode is selected |
| App.PrimeFillTargetIsModeTarget | src/App.tsx:109-112 | the prime fill requests the endpoint of the "Check Prime" mode, whatever mode is selected |
| App.RequestTarget | src/App.tsx:33 | the request target starts with the mode's URL, and for a non-negative number continues with digits that read back as that number, with no leading zero (0 gives "0") |
| App.Initial | src/App.tsx:13-15 | the first render shows no current result and an empty history; it agrees with the store exactly when the key is absent or holds an empty list |
| App.Commit | src/App.tsx:96-97 | a fill writes the mapped history both to memory and under the key, so the store agrees, keeps the current result and keeps every other key |
| App.FillAlert | src/App.tsx:83-86 | a fill handler alerts exactly when its message text does not throw, and the alert is the same `Error {statusCode} - {statusMessage}:\n{text}` template as on the submit path, with the fill-path text |
| App.ScenarioSubmitSeven | src/App.tsx:54-60 | submitting 7 on a fresh start with answer prime and "5040" shows that record and stores a one-entry history |
| App.ScenarioCheckPrimeTen | src/App.tsx:127-133 | "Check Prime" on a bare row for 10 turns only that row into prime = false |
| App.ScenarioBadRequest | src/App.tsx:35-51 | a 400 with one field complaint alerts `Error 400 - Bad Request:\nmust be >= 0` and changes nothing |
| ErrorFormat.SubmitErrorText | src/App.tsx:40-46 | the submit-path text: a string message verbatim; an object message's values joined by line breaks; a `null` message throws; otherwise a non-empty `error`, else "Unknown error occurred" |
| ErrorFormat.FillErrorText | src/App.tsx:83 | the fill-path text `Object.values(message).join("\n")`: an object message's values; a string message's characters; "" for a number or boolean; a throw for a missing or `null` message |
| ErrorFormat.AlertText | src/App.tsx:48-50 | the alert is "Error ", the status code's decimal text, " - ", the status message, ":\n" and the message text, in that order and with nothing else |
| ErrorFormat.AlertListsEachComplaint | src/App.tsx:43-50 | the alert's first line is the status line and each of its remaining lines is one field complaint, in order |
| ErrorFormat.FormattersAgreeOnFields | src/App.tsx:43-119 | for an object message both handlers produce the same text |
| ErrorFormat.FillSplitsTextMessage | src/App.tsx:119-122 | a line-free string message of two or more characters reaches the user verbatim from submit, but one character per line from a fill handler |
| ErrorFormat.ErrorFieldOnlyOnSubmitPath | src/App.tsx:44 | with no message but an `error` string, submit shows the error while a fill handler throws and shows nothing |
| Text.Join | src/App.tsx:43 | `join` of no values is empty and of one value is that value; otherwise its length is the parts' lengths plus one separator between each pair of neighbours, and it starts with the first part |
| Text.Chars | src/App.tsx:83 | `Object.values` of a string gives one single-character string per character, in order |
| Text.Lines | src/App.tsx:43 | splitting on line breaks gives at least one piece, none with a line break, and a line-free text splits into itself |
| Text.LinesJoinRoundTrip | src/App.tsx:43 | splitting any text on line breaks and joining the pieces with "\n" gives back the text |
| Text.JoinLinesRoundTrip | src/App.tsx:43 | joining line-free values with "\n" and splitting again gives back the values |
| Text.ShowNat | src/App.tsx:49 | an integer's decimal text is non-empty digits with no leading zero, a single digit below 10 (so 0 is "0") |
| Text.ShowNatRoundTrip | src/App.tsx:49 | the decimal text of a status code reads back as that code |
| Text.ShowInt | src/App.tsx:49 | the text starts with a minus sign exactly when the integer is negative; the digits (after the sign, for a negative integer) read back as the integer's magnitude with no leading zero, and 0 is "0" |
| Form.IsInteger | src/component/Form.tsx:59 | a parsed value is an integer exactly when it is the value of some integer |
| Form.Validate | src/component/Form.tsx:53-68 | not-a-number gets "Please enter a valid number."; otherwise a non-integer gets "Please enter a whole number."; otherwise a negative gets "Number must be zero or positive."; exactly the non-negative integers pass, each as itself |
| Form.AcceptsNaturals | src/component/Form.tsx:53-72 | every non-negative integer passes as itself |
| Form.RefusesHalves | src/component/Form.tsx:59-62 | for every non-negative integer n, n - 0.5 is refused with "Please enter a whole number." |
| Form.RefusesNegatives | src/component/Form.tsx:65-68 | for every non-negative integer n, -n-1 is refused with "Number must be zero or positive." |
| Form.RefusesNonFinite | src/component/Form.tsx:53-62 | a non-number is refused with "Please enter a valid number." and an infinity with "Please enter a whole number." |
| Form.FirstFailingCheckWins | src/component/Form.tsx:59-68 | a negative non-integer gets the whole-number message, not the negative one |
| Form.HandleSubmit | src/component/Form.tsx:45-73 | a refused value sets its message and calls nothing; a valid value clears the error and makes exactly one call with the parsed number and the current mode's URL; text and mode are kept |
| Form.HandleChange | src/component/Form.tsx:39-42 | an edit replaces the text, resets the error to "" and keeps the mode |
| Form.InitialForm | src/component/Form.tsx:26-36 | the form starts with empty text, no error and the third option, "Prime & Factorial" |
| Form.FindByUrl | src/component/Form.tsx:95 | `find` returns the first option with the URL, or none exactly when no option has it |
| Form.SelectMode | src/component/Form.tsx:94-97 | a URL that names an option selects that option; any other URL leaves the form unchanged |
| Form.SelectEachOption | src/component/Form.tsx:15-31 | the three option URLs are distinct, so choosing an option's URL selects exactly that option |

## Left out

- Network I/O: `fetch`, HTTP status codes and `response.json()` faults are not modelled. Each handler takes the awaited response as an input, and every fault is one `Fault` case.
- Local storage and JSON: `localStorage` is a map, and `JSON.stringify`/`JSON.parse` are the identity. A malformed stored value, which makes `JSON.parse` throw inside the start-up effect, is outside the model.
- `Number(text)`: JavaScript's string-to-number parse (including `Number("") === 0`) and floating-point precision are not modelled. The parsed value is an input.
- Concurrency: racing requests, the `history` captured by a fill handler's closure, and indexes captured before an `await` are not modelled. Actions are handled one at a time, so a fill always sees the current history.
- `Object.values` on non-string values: object and array messages are reduced to their values, already rendered as strings. `join`'s conversion of nested values (and of `null` or `undefined` to "") is not modelled.
- The `number` argument of the fill handlers only builds the request URL, which `App.FactorialFillTarget` and `App.PrimeFillTarget` cover. The history update ignores it, and so does the model.
- `alert`, `console.*` and rendering: the alert is returned as text. `src/component/Header.tsx`, `src/component/ResultDisplay.tsx` and `src/component/ResultHistory.tsx` are UI only.
- Type-only files: `src/types/MathTypes.ts`, `src/types/ErrorTypes.ts` and `src/types/PropsTypes.ts` shape the datatypes and have no rows of their own. The payload's `timestamp` is never read and is left out.
- ErrorFormat.FillErrorText: `Object.values` on a string yields UTF-16 code units, but a Dafny string is a sequence of Unicode scalar values. So a character outside the Basic Multilingual Plane (an emoji, say) stays one line in the model, while the code alerts it as two lone-surrogate lines. The model does not represent UTF-16.
- Text.ShowInt: JavaScript writes integers of magnitude 1e21 or more in exponent form (`1e+21`). The model always gives plain digits, and so does `App.RequestTarget`. Validation has no upper bound, so such a number can reach a request URL. Exponent notation is left out with the rest of floating-point formatting.
- ErrorFormat.AlertText: the payload's `statusCode` and `statusMessage` are taken as present, as `src/types/ErrorTypes.ts` declares them. A body that lacks them (one carrying only `error`, say) makes the code alert `Error undefined - undefined:` followed by the text, which the model does not represent.

=== FILE: app.dfy ===
/** The application's result history: the current result, the ordered list
    of past results, and the persisted key-value store that keeps a copy of
    that list under the key "Results". Every handler is a pure transition
    on `AppState`; the network answer it awaited is an input. */
module App {
  import opened MathTypes
  import opened Text
  import opened ErrorFormat
  import Form

  const ResultsKey := "Results"

  /** The persisted store, with serialisation taken as the identity. */
  type Store = map<string, seq<ResultRecord>>

  datatype AppState = AppState(
    history: seq<ResultRecord>,
    current: Option<ResultRecord>,
    store: Store)

  /** How an awaited request ended: an ok status with its record, a non-ok
      status with its error payload, or a fault (`fetch` rejected or the body
      was not JSON) that the handler's catch swallows. */
  datatype Response = Ok(body: ResultRecord) | Rejected(payload: ErrorPayload) | Fault

  /** A handler's outcome: the next state and the alert text, if any. */
  datatype Step = Step(state: AppState, alert: Option<string>)

  /** The persisted copy agrees with the history: stored under the key when
      the key is present, and the history is empty when the key is absent. */
  ghost predicate Agrees(s: AppState) {
    && (ResultsKey in s.store ==> s.store[ResultsKey] == s.history)
    && (ResultsKey !in s.store ==> s.history == [])
  }

  /** No key other than "Results" differs between the two stores. */
  ghost predicate OtherKeysKept(before: Store, after: Store) {
    && (forall k :: k in before && k != ResultsKey ==> k in after && after[k] == before[k])
    && (forall k :: k in after && k != ResultsKey ==> k in before)
  }

  /** The state on first render: nothing shown, nothing in the history. */
  function Initial(store: Store): (r: AppState)
    ensures r.history == [] && r.current.None? && r.store == store
    ensures Agrees(r) <==> ResultsKey !in store || store[ResultsKey] == []
  {
    AppState([], None, store)
  }

  /** The start-up effect: a stored list replaces the history; without the
      key the history is left as it was. The current result is not restored. */
  function Hydrate(s: AppState): (r: AppState)
    ensures ResultsKey in s.store ==> r.history == s.store[ResultsKey]
    ensures ResultsKey !in s.store ==> r.history == s.history
    ensures r.current == s.current && r.store == s.store
  {
    if ResultsKey in s.store then s.(history := s.store[ResultsKey]) else s
  }

  /** A successful submit: the record becomes the current result, goes to
      the end of the history, and the whole history is written back. */
  function Append(s: AppState, rec: ResultRecord): (r: AppState)
    ensures |r.history| == |s.history| + 1
    ensures forall j :: 0 <= j < |s.history| ==> r.history[j] == s.history[j]
    ensures r.history[|s.history|] == rec
    ensures r.current == Some(rec)
    ensures Agrees(r)
    ensures OtherKeysKept(s.store, r.store)
  {
    var h := s.history + [rec];
    AppState(h, Some(rec), s.store[ResultsKey := h])
  }

  /** `history.map((item, i) => i === index ? f(item) : item)`. */
  function MapAt(h: seq<ResultRecord>, index: int, f: ResultRecord -> ResultRecord): (r: seq<ResultRecord>)
    ensures |r| == |h|
    ensures forall j :: 0 <= j < |h| && j != index ==> r[j] == h[j]
    ensures 0 <= index < |h| ==> r[index] == f(h[index])
  {
    seq(|h|, j requires 0 <= j < |h| => if j == index then f(h[j]) else h[j])
  }

  /** The mapped list is the history with one position updated, or the
      history itself when the index names no entry. */
  lemma MapAtIsUpdate(h: seq<ResultRecord>, index: int, f: ResultRecord -> ResultRecord)
    ensures 0 <= index < |h| ==> MapAt(h, index, f) == h[index := f(h[index])]
    ensures !(0 <= index < |h|) ==> MapAt(h, index, f) == h
  {
    var r := MapAt(h, index, f);
    if 0 <= index < |h| {
      assert forall j :: 0 <= j < |h| ==> r[j] == h[index := f(h[index])][j];
    } else {
      assert forall j :: 0 <= j < |h| ==> r[j] == h[j];
    }
  }

  /** Stores a mapped history in memory and under the key. */
  function Commit(s: AppState, h: seq<ResultRecord>): (r: AppState)
    ensures r.history == h && r.current == s.current
    ensures ResultsKey in r.store && Agrees(r)
    ensures OtherKeysKept(s.store, r.store)
  {
    AppState(h, s.current, s.store[ResultsKey := h])
  }

  /** The alert a fill handler raises for a non-ok response. */
  function FillAlert(p: ErrorPayload): (r: Option<string>)
    ensures r.None? <==> p.message.Absent? || p.message.Null?
    ensures r.Some? ==> r.value == AlertText(p, FillErrorText(p).value)
  {
    match FillErrorText(p)
    case Some(m) => Some(AlertText(p, m))
    case None => None
  }

  /** The submit handler. Only an ok response changes anything; a non-ok
      one raises the alert built from the submit-path message text. */
  function HandleSubmit(s: AppState, resp: Response): (r: Step)
    ensures resp.Ok? ==> r.state == Append(s, resp.body) && r.alert.None?
    ensures !resp.Ok? ==> r.state == s
    ensures resp.Fault? ==> r.alert.None?
    ensures resp.Rejected? && SubmitErrorText(resp.payload).Some?
      ==> r.alert == Some(AlertText(resp.payload, SubmitErrorText(resp.payload).value))
    ensures resp.Rejected? && SubmitErrorText(resp.payload).None? ==> r.alert.None?
  {
    match resp
    case Ok(rec) => Step(Append(s, rec), None)
    case Rejected(p) =>
      (match SubmitErrorText(p)
       case Some(m) => Step(s, Some(AlertText(p, m)))
       case None => Step(s, None))
    case Fault => Step(s, None)
  }

  /** The factorial fill: on an ok response, entry `index` takes the
      response's `factorial` and keeps its `number` and `prime`. The current
      result is not touched, and the store is rewritten even when `index`
      names no entry. */
  function FillFactorial(s: AppState, index: int, resp: Response): (r: Step)
    ensures !resp.Ok? ==> r.state == s
    ensures !resp.Ok? ==> r.alert == (if resp.Rejected? then FillAlert(resp.payload) else None)
    ensures resp.Ok? ==> r.alert.None?
    ensures |r.state.history| == |s.history|
    ensures forall j :: 0 <= j < |s.history| && j != index ==> r.state.history[j] == s.history[j]
    ensures resp.Ok? && 0 <= index < |s.history| ==>
      && r.state.history[index].number == s.history[index].number
      && r.state.history[index].prime == s.history[index].prime
      && r.state.history[index].factorial == resp.body.factorial
    ensures resp.Ok? && !(0 <= index < |s.history|) ==> r.state.history == s.history
    ensures r.state.current == s.current
    ensures resp.Ok? ==> Agrees(r.state) && ResultsKey in r.state.store
    ensures OtherKeysKept(s.store, r.state.store)
  {
    match resp
    case Ok(rec) =>
      Step(Commit(s, MapAt(s.history, index, (item: ResultRecord) => item.(factorial := rec.factorial))), None)
    case Rejected(p) => Step(s, FillAlert(p))
    case Fault => Step(s, None)
  }

  /** The prime fill: the same shape as the factorial fill, on `prime`. */
  function FillPrime(s: AppState, index: int, resp: Response): (r: Step)
    ensures !resp.Ok? ==> r.state == s
    ensures !resp.Ok? ==> r.alert == (if resp.Rejected? then FillAlert(resp.payload) else None)
    ensures resp.Ok? ==> r.alert.None?
    ensures |r.state.history| == |s.history|
    ensures forall j :: 0 <= j < |s.history| && j != index ==> r.state.history[j] == s.history[j]
    ensures resp.Ok? && 0 <= index < |s.history| ==>
      && r.state.history[index].number == s.history[index].number
      && r.state.history[index].factorial == s.history[index].factorial
      && r.state.history[index].prime == resp.body.prime
    ensures resp.Ok? && !(0 <= index < |s.history|) ==> r.state.history == s.history
    ensures r.state.current == s.current
    ensures resp.Ok? ==> Agrees(r.state) && ResultsKey in r.state.store
    ensures OtherKeysKept(s.store, r.state.store)
  {
    match resp
    case Ok(rec) =>
      Step(Commit(s, MapAt(s.history, index, (item: ResultRecord) => item.(prime := rec.prime))), None)
    case Rejected(p) => Step(s, FillAlert(p))
    case Fault => Step(s, None)
  }

  /** Clearing removes the key rather than storing an empty list, empties
      the history and clears the current result. */
  function Clear(s: AppState): (r: AppState)
    ensures ResultsKey !in r.store
    ensures r.history == [] && r.current == None
    ensures Agrees(r)
    ensures OtherKeysKept(s.store, r.store)
  {
    AppState([], None, s.store - {ResultsKey})
  }

  /** `url + number`: the request target for a number below 1e21. */
  function RequestTarget(url: string, number: int): (r: string)
    ensures |r| > |url| && r[..|url|] == url
    ensures number >= 0 ==> IsDigits(r[|url|..]) && DecimalValue(r[|url|..]) == number
    ensures number == 0 ==> r[|url|..] == "0"
    ensures number > 0 ==> r[|url|] != '0'
  {
    ShowNatRoundTrip(if number < 0 then 0 else number);
    assert (url + ShowInt(number))[|url|..] == ShowInt(number);
    url + ShowInt(number)
  }

  /** The factorial fill handler's fixed target. */
  function FactorialFillTarget(number: int): string {
    RequestTarget("https://mathool.onrender.com/api/v1/math/factorial?number=", number)
  }

  /** The prime fill handler's fixed target. */
  function PrimeFillTarget(number: int): string {
    RequestTarget("https://mathool.onrender.com/api/v1/math/prime?number=", number)
  }

  /** The factorial fill asks the endpoint of the "Calculate Factorial" mode,
      whatever mode is selected. */
  lemma FactorialFillTargetIsModeTarget(number: int)
    ensures FactorialFillTarget(number) == RequestTarget(Form.ModeOptions[1].url, number)
    ensures Form.ModeOptions[1].name == "Calculate Factorial"
  {
  }

  /** The prime fill asks the endpoint of the "Check Prime" mode, whatever
      mode is selected. */
  lemma PrimeFillTargetIsModeTarget(number: int)
    ensures PrimeFillTarget(number) == RequestTarget(Form.ModeOptions[0].url, number)
    ensures Form.ModeOptions[0].name == "Check Prime"
  {
  }

  /** A user action once its request (if any) has resolved. */
  datatype Event =
    | Submit(resp: Response)
    | FillFactorialAt(index: int, resp: Response)
    | FillPrimeAt(index: int, resp: Response)
    | ClearHistory

  function Apply(s: AppState, e: Event): AppState {
    match e
    case Submit(resp) => HandleSubmit(s, resp).state
    case FillFactorialAt(i, resp) => FillFactorial(s, i, resp).state
    case FillPrimeAt(i, resp) => FillPrime(s, i, resp).state
    case ClearHistory => Clear(s)
  }

  /** The state after a sequence of actions handled one at a time. */
  function Run(s: AppState, events: seq<Event>): AppState
    decreases |events|
  {
    if |events| == 0 then s else Run(Apply(s, events[0]), events[1..])
  }

  /** Every handler leaves the store agreeing with the history. */
  lemma ApplyKeepsAgrees(s: AppState, e: Event)
    requires Agrees(s)
    ensures Agrees(Apply(s, e))
  {
  }

  lemma {:induction false} RunKeepsAgrees(s: AppState, events: seq<Event>)
    requires Agrees(s)
    ensures Agrees(Run(s, events))
    decreases |events|
  {
    if |events| > 0 {
      ApplyKeepsAgrees(s, events[0]);
      RunKeepsAgrees(Apply(s, events[0]), events[1..]);
    }
  }

  /** The store agrees with the history exactly when a reload (a fresh
      start hydrated from that store) restores the same history. */
  lemma AgreesIffReloadRestores(s: AppState)
    ensures Agrees(s) <==> Hydrate(Initial(s.store)).history == s.history
  {
  }

  /** Start-up hydration produces an agreeing state from any store. */
  lemma HydrateAgrees(store: Store)
    ensures Agrees(Hydrate(Initial(store)))
  {
  }

  /** Whatever the user did since start-up, reloading shows the same history. */
  lemma SessionSurvivesReload(store: Store, events: seq<Event>)
    ensures var s := Run(Hydrate(Initial(store)), events);
            Hydrate(Initial(s.store)).history == s.history
  {
    HydrateAgrees(store);
    RunKeepsAgrees(Hydrate(Initial(store)), events);
    AgreesIffReloadRestores(Run(Hydrate(Initial(store)), events));
  }

  /** No resurrection from a stale key: a reload after clearing is empty. */
  lemma ClearThenHydrateIsEmpty(s: AppState)
    ensures Hydrate(Initial(Clear(s).store)).history == []
  {
  }

  /** Successful submits of the given records, in order. */
  function Submits(records: seq<ResultRecord>): (es: seq<Event>)
    ensures |es| == |records|
    ensures forall k :: 0 <= k < |records| ==> es[k] == Submit(Ok(records[k]))
  {
    seq(|records|, k requires 0 <= k < |records| => Submit(Ok(records[k])))
  }

  /** Submitting records appends them in submission order, and the stored
      copy reads back as the same sequence. */
  lemma {:induction false} SubmitsAppendInOrder(s: AppState, records: seq<ResultRecord>)
    requires |records| >= 1
    ensures Run(s, Submits(records)).history == s.history + records
    ensures ResultsKey in Run(s, Submits(records)).store
    ensures Run(s, Submits(records)).store[ResultsKey] == s.history + records
    ensures Run(s, Submits(records)).current == Some(records[|records| - 1])
    decreases |records|
  {
    var es := Submits(records);
    var next := Apply(s, es[0]);
    assert next == Append(s, records[0]);
    assert es[1..] == Submits(records[1..]);
    if |records| == 1 {
      assert Run(next, es[1..]) == next;
      assert s.history + records == s.history + [records[0]];
    } else {
      SubmitsAppendInOrder(next, records[1..]);
      assert next.history + records[1..] == s.history + records;
    }
  }

  /** Filling both answers of one entry gives the same history in either
      order. */
  lemma FillOrderIrrelevant(s: AppState, index: int, forPrime: ResultRecord, forFactorial: ResultRecord)
    ensures FillFactorial(FillPrime(s, index, Ok(forPrime)).state, index, Ok(forFactorial)).state
         == FillPrime(FillFactorial(s, index, Ok(forFactorial)).state, index, Ok(forPrime)).state
  {
    var a := FillFactorial(FillPrime(s, index, Ok(forPrime)).state, index, Ok(forFactorial)).state;
    var b := FillPrime(FillFactorial(s, index, Ok(forFactorial)).state, index, Ok(forPrime)).state;
    assert a.history == b.history;
  }

  /** Submitting 7 in the combined mode on a fresh start. */
  lemma ScenarioSubmitSeven()
    ensures var rec := ResultRecord(7, Some(true), Some("5040"));
            var r := HandleSubmit(Hydrate(Initial(map[])), Ok(rec));
            && r.state.current == Some(rec) && r.state.history == [rec] && r.alert.None?
            && r.state.store == map[ResultsKey := [rec]]
  {
    var rec := ResultRecord(7, Some(true), Some("5040"));
    var empty: seq<ResultRecord> := [];
    assert empty + [rec] == [rec];
    assert map[][ResultsKey := [rec]] == map[ResultsKey := [rec]];
  }

  /** "Check Prime" on a bare row for 10 fills in `prime` only. */
  lemma ScenarioCheckPrimeTen(before: seq<ResultRecord>, after: seq<ResultRecord>)
    ensures var h := before + [ResultRecord(10, None, None)] + after;
            var r := FillPrime(AppState(h, None, map[ResultsKey := h]), |before|, Ok(ResultRecord(10, Some(false), None)));
            r.state.history == before + [ResultRecord(10, Some(false), None)] + after
  {
    var h := before + [ResultRecord(10, None, None)] + after;
    var r := FillPrime(AppState(h, None, map[ResultsKey := h]), |before|, Ok(ResultRecord(10, Some(false), None)));
    assert r.state.history == h[|before| := ResultRecord(10, Some(false), None)];
  }

  lemma ShowFourHundred()
    ensures ShowInt(400) == "400"
  {
    assert ShowNat(4) == "4";
    assert ShowNat(40) == ShowNat(4) + "0";
    assert ShowNat(400) == ShowNat(40) + "0";
  }

  /** The alert text for a 400 with one field complaint. */
  lemma BadRequestAlertText()
    ensures AlertText(ErrorPayload(400, "Bad Request", Fields(["must be >= 0"]), None), "must be >= 0")
         == "Error 400 - Bad Request:\nmust be >= 0"
  {
    ShowFourHundred();
  }

  /** A 400 with one field complaint alerts and leaves everything unchanged. */
  lemma ScenarioBadRequest(s: AppState)
    ensures var p := ErrorPayload(400, "Bad Request", Fields(["must be >= 0"]), None);
            var r := HandleSubmit(s, Rejected(p));
            r.state == s && r.alert == Some("Error 400 - Bad Request:\nmust be >= 0")
  {
    var p := ErrorPayload(400, "Bad Request", Fields(["must be >= 0"]), None);
    assert SubmitErrorText(p) == Some("must be >= 0");
    BadRequestAlertText();
  }
}

=== FILE: error_format.dfy ===
/** The error payload the math service sends with a non-ok status, and the
    two ways the client turns it into the text of an alert. */
module ErrorFormat {
  import opened MathTypes
  import opened Text

  /** What the payload's `message` field holds, by JavaScript value kind:
      missing (`undefined`), `null`, a string, an object or array (kept as
      its values in order, which is all `Object.values` sees), or another
      scalar such as a number or boolean. */
  datatype Message = Absent | Null | Text(text: string) | Fields(values: seq<string>) | Scalar

  /** The non-ok response body; `timestamp` is never read and is left out. */
  datatype ErrorPayload = ErrorPayload(
    statusCode: int,
    statusMessage: string,
    message: Message,
    error: Option<string>)

  const UnknownError := "Unknown error occurred"

  /** JavaScript truthiness of the payload's `error` string. */
  predicate HasError(p: ErrorPayload) {
    p.error.Some? && p.error.value != ""
  }

  /** `typeof message === "object"` holds for objects, arrays and `null`. */
  predicate IsObjectTyped(m: Message) {
    m.Fields? || m.Null?
  }

  /** The submit handler's message text. `None` is the TypeError that
      `Object.values(null)` throws: the handler's catch swallows it and no
      alert is shown. */
  function SubmitErrorText(p: ErrorPayload): (r: Option<string>)
    ensures p.message.Text? ==> r == Some(p.message.text)
    ensures p.message.Fields? ==> r == Some(Join(p.message.values, "\n"))
    ensures r.None? <==> p.message.Null?
    ensures !p.message.Text? && !IsObjectTyped(p.message) && HasError(p) ==> r == Some(p.error.value)
    ensures !p.message.Text? && !IsObjectTyped(p.message) && !HasError(p) ==> r == Some(UnknownError)
  {
    match p.message
    case Text(s) => Some(s)
    case Fields(vs) => Some(Join(vs, "\n"))
    case Null => None
    case _ => if HasError(p) then Some(p.error.value) else Some(UnknownError)
  }

  /** The fill handlers' message text: `Object.values(message).join("\n")`
      with no case analysis. A string splits into its characters, a number
      or boolean has no values, and `undefined` or `null` throws (`None`). */
  function FillErrorText(p: ErrorPayload): (r: Option<string>)
    ensures r.None? <==> p.message.Absent? || p.message.Null?
    ensures p.message.Fields? ==> r == Some(Join(p.message.values, "\n"))
    ensures p.message.Text? ==> r == Some(Join(Chars(p.message.text), "\n"))
    ensures p.message.Scalar? ==> r == Some("")
  {
    match p.message
    case Text(s) => Some(Join(Chars(s), "\n"))
    case Fields(vs) => Some(Join(vs, "\n"))
    case Scalar => Some("")
    case _ => None
  }

  /** The alert: `Error {statusCode} - {statusMessage}:\n{messages}`. */
  function AlertText(p: ErrorPayload, messages: string): (r: string)
    ensures |r| == 6 + |ShowInt(p.statusCode)| + 3 + |p.statusMessage| + 2 + |messages|
    ensures r[..6] == "Error "
    ensures r[6..6 + |ShowInt(p.statusCode)|] == ShowInt(p.statusCode)
    ensures r[6 + |ShowInt(p.statusCode)|..9 + |ShowInt(p.statusCode)|] == " - "
    ensures r[9 + |ShowInt(p.statusCode)|..|r| - |messages| - 2] == p.statusMessage
    ensures r[|r| - |messages| - 2..|r| - |messages|] == ":\n"
    ensures r[|r| - |messages|..] == messages
  {
    "Error " + ShowInt(p.statusCode) + " - " + p.statusMessage + ":\n" + messages
  }

  /** An object message puts one complaint per line after the status line,
      so the user can read each field's complaint separately. */
  lemma AlertListsEachComplaint(p: ErrorPayload)
    requires p.message.Fields? && |p.message.values| >= 1
    requires NoLineBreak(p.message.values) && '\n' !in p.statusMessage
    ensures SubmitErrorText(p).Some?
    ensures Lines(AlertText(p, SubmitErrorText(p).value))
         == ["Error " + ShowInt(p.statusCode) + " - " + p.statusMessage + ":"] + p.message.values
  {
    var head := "Error " + ShowInt(p.statusCode) + " - " + p.statusMessage + ":";
    var body := Join(p.message.values, "\n");
    assert '\n' !in ShowInt(p.statusCode) by {
      if p.statusCode < 0 {
        assert ShowInt(p.statusCode) == "-" + ShowNat(-p.statusCode);
      }
    }
    assert '\n' !in head;
    assert AlertText(p, body) == head + "\n" + body;
    LinesAfterLine(head, body);
    JoinLinesRoundTrip(p.message.values);
  }

  /** Both handlers render an object message the same way. */
  lemma FormattersAgreeOnFields(p: ErrorPayload)
    requires p.message.Fields?
    ensures FillErrorText(p) == SubmitErrorText(p)
  {
  }

  /** A plain string message reaches the user verbatim from the submit
      handler, but the fill handlers split it one character per line. */
  lemma {:induction false} FillSplitsTextMessage(p: ErrorPayload)
    requires p.message.Text? && |p.message.text| >= 2 && '\n' !in p.message.text
    ensures SubmitErrorText(p) == Some(p.message.text)
    ensures FillErrorText(p).Some?
    ensures Lines(FillErrorText(p).value) == Chars(p.message.text)
    ensures FillErrorText(p) != SubmitErrorText(p)
  {
    var s := p.message.text;
    var cs := Chars(s);
    assert NoLineBreak(cs) by {
      forall k | 0 <= k < |cs| ensures '\n' !in cs[k] {
        assert cs[k] == [s[k]];
      }
    }
    JoinLinesRoundTrip(cs);
    assert Lines(s) == [s];
  }

  /** With no `message` but an `error` string, the submit handler shows the
      error while the fill handlers throw and show nothing. */
  lemma ErrorFieldOnlyOnSubmitPath(p: ErrorPayload)
    requires p.message.Absent? && HasError(p)
    ensures SubmitErrorText(p) == Some(p.error.value)
    ensures FillErrorText(p).None?
  {
  }
}

=== FILE: form.dfy ===
/** The input form: the text field, its inline error, and the selected
    query mode, with the submit-time validation chain. */
module Form {
  import opened MathTypes

  /** What `Number(text)` yields, abstracted: not a number, an infinity,
      or a finite value. The string-to-number parse itself is an input. */
  datatype Parsed = NaN | Infinity(negative: bool) | Num(value: real)

  /** A query mode: its menu label (`name`) and the request URL the number is appended to. */
  datatype Mode = Mode(name: string, url: string)

  const ModeOptions: seq<Mode> := [
    Mode("Check Prime", "https://mathool.onrender.com/api/v1/math/prime?number="),
    Mode("Calculate Factorial", "https://mathool.onrender.com/api/v1/math/factorial?number="),
    Mode("Prime & Factorial", "https://mathool.onrender.com/api/v1/math/prime-factorial?number=")
  ]

  const NotANumber := "Please enter a valid number."
  const NotWhole := "Please enter a whole number."
  const IsNegative := "Number must be zero or positive."

  datatype FormState = FormState(text: string, error: string, mode: Mode)

  /** The call the form makes to its `onSubmit` prop. */
  datatype SubmitCall = SubmitCall(number: int, url: string)

  datatype FormStep = FormStep(form: FormState, call: Option<SubmitCall>)

  /** The parsed value of an integer's text. */
  function NumOf(n: int): Parsed {
    Num(n as real)
  }

  /** `Number.isInteger`: finite with no fractional part, that is, the
      parsed value of some integer. */
  function IsInteger(p: Parsed): (b: bool)
    ensures b <==> exists n: int :: NumOf(n) == p
  {
    if p.Num? && p.value.Floor as real == p.value then
      assert NumOf(p.value.Floor) == p;
      true
    else
      assert forall n: int :: NumOf(n) != p by {
        forall n: int ensures NumOf(n) != p {
          assert (n as real).Floor == n;
        }
      }
      false
  }

  /** The outcome of the three ordered checks. */
  datatype Verdict = Accept(n: int) | Reject(reason: string)

  function Validate(p: Parsed): (v: Verdict)
    ensures v == Reject(NotANumber) <==> p.NaN?
    ensures v == Reject(NotWhole) <==> !p.NaN? && !IsInteger(p)
    ensures v == Reject(IsNegative) <==> IsInteger(p) && p.value < 0.0
    ensures v.Accept? <==> IsInteger(p) && p.value >= 0.0
    ensures v.Accept? ==> v.n >= 0 && p == Num(v.n as real)
  {
    if p.NaN? then Reject(NotANumber)
    else if !IsInteger(p) then Reject(NotWhole)
    else if p.value < 0.0 then Reject(IsNegative)
    else Accept(p.value.Floor)
  }

  /** The form as first rendered: empty text, no error, the third mode. */
  function InitialForm(): (f: FormState)
    ensures f.text == "" && f.error == ""
    ensures f.mode == ModeOptions[2] && f.mode.name == "Prime & Factorial"
  {
    FormState("", "", ModeOptions[2])
  }

  /** Any edit of the text field replaces the text and clears the error. */
  function HandleChange(f: FormState, text: string): (r: FormState)
    ensures r.text == text && r.error == "" && r.mode == f.mode
  {
    f.(text := text, error := "")
  }

  /** The submit handler, given `Number(f.text)`: a failed check sets its
      message and calls nothing; a passing value clears the error and calls
      `onSubmit` once with the number and the selected mode's URL. */
  function HandleSubmit(f: FormState, parsed: Parsed): (r: FormStep)
    ensures r.form.text == f.text && r.form.mode == f.mode
    ensures r.call.Some? <==> Validate(parsed).Accept?
    ensures r.call.Some? ==>
      && r.form.error == ""
      && r.call.value == SubmitCall(Validate(parsed).n, f.mode.url)
      && parsed == Num(r.call.value.number as real)
    ensures r.call.None? ==> r.form.error == Validate(parsed).reason
    ensures r.call.None? ==> r.form.error in {NotANumber, NotWhole, IsNegative}
  {
    match Validate(parsed)
    case Reject(why) => FormStep(f.(error := why), None)
    case Accept(n) => FormStep(f.(error := ""), Some(SubmitCall(n, f.mode.url)))
  }

  /** `options.find(m => m.url === url)`: the first option with that URL. */
  function FindByUrl(options: seq<Mode>, url: string): (r: Option<Mode>)
    ensures r.Some? ==> r.value in options && r.value.url == url
    ensures r.None? <==> forall k :: 0 <= k < |options| ==> options[k].url != url
    ensures r.Some? ==>
      exists k :: (0 <= k < |options| && options[k] == r.value
                   && forall j :: 0 <= j < k ==> options[j].url != url)
    decreases |options|
  {
    if |options| == 0 then None
    else if options[0].url == url then Some(options[0])
    else
      var r := FindByUrl(options[1..], url);
      if r.Some? then
        var k :| (0 <= k < |options[1..]| && options[1..][k] == r.value
                  && forall j :: 0 <= j < k ==> options[1..][j].url != url);
        assert options[k + 1] == r.value;
        r
      else r
  }

  /** Choosing a menu entry: a URL that names an option selects it; any
      other URL leaves the mode as it was. Text and error are kept. */
  function SelectMode(f: FormState, url: string): (r: FormState)
    ensures r.text == f.text && r.error == f.error
    ensures (exists k :: 0 <= k < |ModeOptions| && ModeOptions[k].url == url)
      ==> r.mode in ModeOptions && r.mode.url == url
    ensures (forall k :: 0 <= k < |ModeOptions| ==> ModeOptions[k].url != url) ==> r == f
  {
    match FindByUrl(ModeOptions, url)
    case Some(m) => f.(mode := m)
    case None => f
  }

  /** Every non-negative integer is accepted as itself. */
  lemma AcceptsNaturals(n: nat)
    ensures Validate(Num(n as real)) == Accept(n)
  {
    assert (n as real).Floor == n;
  }

  /** For every non-negative integer n, n - 0.5 is refused as not whole. */
  lemma RefusesHalves(n: nat)
    ensures Validate(Num(n as real - 0.5)) == Reject(NotWhole)
  {
    assert (n as real - 0.5).Floor == n - 1;
  }

  /** For every non-negative integer n, -n-1 is refused as negative. */
  lemma RefusesNegatives(n: nat)
    ensures Validate(Num(-(n as real) - 1.0)) == Reject(IsNegative)
  {
    assert (-(n as real) - 1.0).Floor == -(n as int) - 1;
  }

  /** Text that is not a number is refused as invalid; an infinity is a
      number but not a whole one. */
  lemma RefusesNonFinite(negative: bool)
    ensures Validate(NaN) == Reject(NotANumber)
    ensures Validate(Infinity(negative)) == Reject(NotWhole)
  {
  }

  /** The checks run in order: a negative fraction is reported as not whole. */
  lemma FirstFailingCheckWins(x: real)
    requires x < 0.0 && x.Floor as real != x
    ensures Validate(Num(x)) == Reject(NotWhole)
  {
  }

  /** The three menu URLs are distinct, so picking an option's URL selects
      exactly that option. */
  lemma SelectEachOption(f: FormState, k: int)
    requires 0 <= k < |ModeOptions|
    ensures SelectMode(f, ModeOptions[k].url).mode == ModeOptions[k]
  {
    var r := FindByUrl(ModeOptions, ModeOptions[k].url);
    assert r.Some?;
    var i :| (0 <= i < |ModeOptions| && ModeOptions[i] == r.value
              && forall j :: 0 <= j < i ==> ModeOptions[j].url != ModeOptions[k].url);
    assert ModeOptions[0].url != ModeOptions[1].url;
    assert ModeOptions[0].url != ModeOptions[2].url;
    assert ModeOptions[1].url != ModeOptions[2].url;
  }
}

=== FILE: math_types.dfy ===
/** The result record exchanged with the math service and kept in the history.
    The service's three response shapes (prime only, factorial only, both) are
    one record whose two answers are independently optional. */
module MathTypes {

  /** An optional value: `None` stands for a JavaScript field that is absent
      (or `undefined`, which the JSON round trip drops). */
  datatype Option<+T> = None | Some(value: T)

  /** One query and whatever answers are known for it. `factorial` is the
      decimal text the service returns, since factorials overflow numbers. */
  datatype ResultRecord = ResultRecord(number: int, prime: Option<bool>, factorial: Option<string>)
}

=== FILE: text.dfy ===
/** The string operations the client relies on: `Array.prototype.join`,
    `Object.values` applied to a string and the
    decimal rendering a template literal gives an integer below 1e21 in
    magnitude (larger ones JavaScript writes in exponent form). `Lines`,
    a split on line breaks that the client itself never performs, is how a
    reader sees an alert, and states what a join preserves. */
module Text {

  /** The summed lengths of the parts. */
  function TotalLength(parts: seq<string>): nat {
    if |parts| == 0 then 0 else |parts[0]| + TotalLength(parts[1..])
  }

  /** `parts.join(sep)`: the empty array gives "", one part gives itself,
      and otherwise every part is kept with one separator between
      neighbours. */
  function Join(parts: seq<string>, sep: string): (r: string)
    ensures |parts| == 0 ==> r == ""
    ensures |parts| == 1 ==> r == parts[0]
    ensures |parts| >= 1 ==> |r| == TotalLength(parts) + (|parts| - 1) * |sep|
    ensures |parts| >= 1 ==> r[..|parts[0]|] == parts[0]
  {
    if |parts| == 0 then ""
    else if |parts| == 1 then parts[0]
    else parts[0] + sep + Join(parts[1..], sep)
  }

  /** `Object.values(s)` for a string `s`: its characters, one string each. */
  function Chars(s: string): (r: seq<string>)
    ensures |r| == |s|
    ensures forall i :: 0 <= i < |s| ==> r[i] == [s[i]]
  {
    seq(|s|, i requires 0 <= i < |s| => [s[i]])
  }

  /** `s.split("\n")`: the pieces between line breaks. Like JavaScript's
      split, the empty string gives one empty piece. */
  function Lines(s: string): (r: seq<string>)
    ensures |r| >= 1
    ensures |r| == 1 <==> '\n' !in s
    ensures '\n' !in s ==> r == [s]
    ensures forall k :: 0 <= k < |r| ==> '\n' !in r[k]
    decreases |s|
  {
    if |s| == 0 then [""]
    else if s[0] == '\n' then [""] + Lines(s[1..])
    else
      var rest := Lines(s[1..]);
      assert [s[0]] + s[1..] == s;
      [[s[0]] + rest[0]] + rest[1..]
  }

  /** Splitting on line breaks and joining the pieces with "\n" gives back
      the text: join and split are inverses in both directions. */
  lemma {:induction false} LinesJoinRoundTrip(s: string)
    ensures Join(Lines(s), "\n") == s
    decreases |s|
  {
    if |s| > 0 {
      var rest := Lines(s[1..]);
      LinesJoinRoundTrip(s[1..]);
      if s[0] == '\n' {
        assert Lines(s) == [""] + rest;
        assert ([""] + rest)[1..] == rest;
        assert Join(Lines(s), "\n") == "" + "\n" + Join(rest, "\n");
      } else {
        assert [s[0]] + s[1..] == s;
        var first := [s[0]] + rest[0];
        assert Lines(s) == [first] + rest[1..];
        if |rest| == 1 {
          assert Join(rest, "\n") == rest[0];
        } else {
          assert Join(rest, "\n") == rest[0] + "\n" + Join(rest[1..], "\n");
          assert ([first] + rest[1..])[1..] == rest[1..];
        }
      }
    }
  }

  ghost predicate NoLineBreak(parts: seq<string>) {
    forall k :: 0 <= k < |parts| ==> '\n' !in parts[k]
  }

  /** Splitting a line-free prefix off a longer text. */
  lemma {:induction false} LinesAfterLine(a: string, b: string)
    requires '\n' !in a
    ensures Lines(a + "\n" + b) == [a] + Lines(b)
    decreases |a|
  {
    if |a| == 0 {
      assert a + "\n" + b == "\n" + b;
      assert ("\n" + b)[1..] == b;
    } else {
      assert (a + "\n" + b)[0] == a[0];
      assert (a + "\n" + b)[1..] == a[1..] + "\n" + b;
      LinesAfterLine(a[1..], b);
      assert [a[0]] + a[1..] == a;
    }
  }

  /** Joining line-free pieces with "\n" and splitting the text again gives
      back the pieces: every joined value ends up on a line of its own. */
  lemma {:induction false} JoinLinesRoundTrip(parts: seq<string>)
    requires |parts| >= 1
    requires NoLineBreak(parts)
    ensures Lines(Join(parts, "\n")) == parts
    decreases |parts|
  {
    if |parts| == 1 {
      assert Join(parts, "\n") == parts[0];
    } else {
      JoinLinesRoundTrip(parts[1..]);
      LinesAfterLine(parts[0], Join(parts[1..], "\n"));
      assert [parts[0]] + parts[1..] == parts;
    }
  }

  function DigitChar(d: nat): char
    requires d < 10
  {
    "0123456789"[d]
  }

  function DigitValue(c: char): nat {
    if '0' <= c <= '9' then (c as int - '0' as int) as nat else 0
  }

  ghost predicate IsDigits(s: string) {
    forall k :: 0 <= k < |s| ==> '0' <= s[k] <= '9'
  }

  /** The value of a decimal digit string, most significant digit first. */
  function DecimalValue(s: string): nat
    decreases |s|
  {
    if |s| == 0 then 0 else DecimalValue(s[..|s| - 1]) * 10 + DigitValue(s[|s| - 1])
  }

  /** The decimal text JavaScript gives a non-negative integer below 1e21. */
  function ShowNat(n: nat): (r: string)
    ensures |r| >= 1 && IsDigits(r)
    ensures n > 0 ==> r[0] != '0'
    ensures n < 10 ==> |r| == 1
  {
    if n < 10 then [DigitChar(n)] else ShowNat(n / 10) + [DigitChar(n % 10)]
  }

  /** The rendering names the number it was made from. */
  lemma {:induction false} ShowNatRoundTrip(n: nat)
    ensures DecimalValue(ShowNat(n)) == n
  {
    var s := ShowNat(n);
    if n < 10 {
      assert s == [DigitChar(n)];
      assert s[..0] == [];
    } else {
      var prefix := ShowNat(n / 10);
      ShowNatRoundTrip(n / 10);
      assert s == prefix + [DigitChar(n % 10)];
      assert s[..|s| - 1] == prefix;
      assert DigitValue(s[|s| - 1]) == n % 10;
    }
  }

  /** The decimal text JavaScript gives an integer below 1e21 in magnitude. */
  function ShowInt(i: int): (r: string)
    ensures |r| >= 1
    ensures r[0] == '-' <==> i < 0
    ensures i >= 0 ==> IsDigits(r) && DecimalValue(r) == i
    ensures i < 0 ==> IsDigits(r[1..]) && DecimalValue(r[1..]) == -i
    ensures i == 0 ==> r == "0"
    ensures i > 0 ==> r[0] != '0'
    ensures i < 0 ==> |r| >= 2 && r[1] != '0'
  {
    ShowNatRoundTrip(if i < 0 then -i else i);
    if i < 0 then
      assert ("-" + ShowNat(-i))[1..] == ShowNat(-i);
      "-" + ShowNat(-i)
    else ShowNat(i)
  }
}
